=== FILE: README.md ===
# DJI video stream decoder — frame admission and decode scheduling

This project models the core of `DJIVideoStreamDecoder`, the hardware-decoding
helper of the DJI Android video-stream decoding sample. The parser callback
delivers access units (frames). The decoder keeps them in a bounded queue of
30 with drop-oldest overflow. While no reference (I-)frame is queued it
discards every frame except a key frame or the stream's first frame
(`frameNum == 1`). When a reference frame is bundled for the connected
product, it puts a synthetic black IDR frame in front of the admitted frame.
The reference flag can still be clear while frames are queued: a first frame
admitted with no bundled reference, or a frame queued right after a resize
released the codec. It re-initialises the codec when the
picture size changes. Its data handler thread feeds one frame per decode step
to the codec, trying at most 20 times for an input buffer. A watchdog resets the
codec when the output buffer set changes ten times within one second.

The decoder's fields are one immutable record, `StreamDecoder.Decoder`. Every
handler is a pure transition on that record:

- `Frames`: the `DJIFrame` record, its delay getters, Java `int` increment.
- `FrameQueue`: the bounded drop-oldest queue.
- `KeyFrames`: `getIframeRawId` and `getDefaultKeyFrame`.
- `Watchdog`: the output-buffers-changed sliding window.
- `StreamDecoder`: `initCodec`, `releaseCodec`, `onFrameQueueIn`, the input-buffer
  retry loop and `decodeFrame`.
- `DataHandler`: the data handler's message dispatch, `onDataRecv`, `init`,
  `changeSurface`, `stop`, `resume`, and whole runs of events.

The hardware codec is reduced to whether a codec handle exists plus the answers
its calls return (`InputAnswer`, `OutputAnswer`). The clock is a `now`
parameter. The connected product and the bundled resources are an `Env`
parameter. The data handler's message queue is the `pending` field, because
`removeCallbacksAndMessages` and the watchdog reset act on it.

Notable behaviour of the code, which the model follows:

- A frame changes the picture size only when both its width and its height
  differ from the current ones (`&&`); a change of one dimension alone is ignored.
  `StreamDecoder.WidthOnlyChangeIgnored` states the consequence.
- Without a bundled reference, a first frame (`frameNum == 1`) that is not a key
  frame is still queued; only the flag stays clear.
- The synthetic reference frame copies the input frame's `isKeyFrame` flag.
- A zero picture size makes `initCodec` return without creating a codec and without reporting anything.
- The watchdog resets on the tenth event that is less than 1000 ms after the
  event nine places before it, counted since the list was last emptied.
- When a frame resizes the decoder while a codec exists, `initCodec`
  releases the codec, whether or not a reference is already queued. The
  release empties the queue, including a queued or just-synthesised reference,
  and clears the flag, so only the resizing frame stays queued. Every later
  frame that is neither a key frame nor frame 1 is then discarded until the
  next key frame. `StreamDecoder.ReferenceLostOnCodecReset` and
  `StreamDecoder.ResizeWithCodecDropsReference` state this.

## Model

| member | source | states |
|---|---|---|
| Frames.NewFrame | android-videostreamdecodingsample/src/main/java/com/dji/videostreamdecodingsample/media/DJIVideoStreamDecoder.java:120-131 | a new frame carries exactly the given payload, size, timestamps, flags, numbers and picture size, with feed and output times still zero, so its decoding delay is zero |
| Frames.QueueDelay | android-videostreamdecodingsample/src/main/java/com/dji/videostreamdecodingsample/media/DJIVideoStreamDecoder.java:133-136 | the queueing delay is non-negative exactly when the frame was fed no earlier than it arrived |
| Frames.DecodingDelay | android-videostreamdecodingsample/src/main/java/com/dji/videostreamdecodingsample/media/DJIVideoStreamDecoder.java:138-141 | the decoding delay is non-negative exactly when the output came no earlier than the feed |
| Frames.TotalDelayAsWritten | android-videostreamdecodingsample/src/main/java/com/dji/videostreamdecodingsample/media/DJIVideoStreamDecoder.java:143-146 | the total-delay getter as written is the decoding delay, whatever the arrival time |
| Frames.Int32Inc | android-videostreamdecodingsample/src/main/java/com/dji/videostreamdecodingsample/media/DJIVideoStreamDecoder.java:665 | the frame counter advances as a 32-bit Java int: the result is in int range and congruent to x + 1 modulo 2^32 |
| Frames.TotalDelay | android-videostreamdecodingsample/src/main/java/com/dji/videostreamdecodingsample/media/DJIVideoStreamDecoder.java:143-146 | the arrival-to-output delay is the sum of the queueing delay and the decoding delay |
| Frames.TotalDelayAsWrittenOmitsQueueing | android-videostreamdecodingsample/src/main/java/com/dji/videostreamdecodingsample/media/DJIVideoStreamDecoder.java:133-146 | the total-delay getter as written equals the decoding delay, and it agrees with the arrival-to-output delay exactly when the queueing delay is zero |
| Frames.TotalDelayCounterexample | android-videostreamdecodingsample/src/main/java/com/dji/videostreamdecodingsample/media/DJIVideoStreamDecoder.java:143-146 | a frame arriving at 0, fed at 5 and output at 12 gets 7 from the getter as written, against an arrival-to-output delay of 12 |
| FrameQueue.Offer | android-videostreamdecodingsample/src/main/java/com/dji/videostreamdecodingsample/media/DJIVideoStreamDecoder.java:527-534 | enqueueing never leaves more than 30 frames, the new frame is always the newest entry, and the result is exactly the newest 30 of the old queue followed by the frame (so at most one frame, the oldest, is evicted) |
| FrameQueue.OfferAll | android-videostreamdecodingsample/src/main/java/com/dji/videostreamdecodingsample/media/DJIVideoStreamDecoder.java:527-534 | after any run of enqueues the queue holds at most 30 frames and ends with the last frame offered |
| FrameQueue.OfferAllKeepsNewest | android-videostreamdecodingsample/src/main/java/com/dji/videostreamdecodingsample/media/DJIVideoStreamDecoder.java:527-534 | after any run of enqueues the queue is exactly the newest 30 of everything seen, in arrival order |
| FrameQueue.ThirtyFiveFramesKeepLastThirty | android-videostreamdecodingsample/src/main/java/com/dji/videostreamdecodingsample/media/DJIVideoStreamDecoder.java:527-534 | frames 1..35 offered to an empty queue leave frames 6..35 in order |
| KeyFrames.IframeRawId | android-videostreamdecodingsample/src/main/java/com/dji/videostreamdecodingsample/media/DJIVideoStreamDecoder.java:218-264 | only Osmo and Osmo Pro have no reference asset; the chosen asset's width matches the stream width exactly when the model has a dedicated asset for that width or the width is 1280, and otherwise the 1280x720 asset is the fallback |
| KeyFrames.IframeRawIdTable | android-videostreamdecodingsample/src/main/java/com/dji/videostreamdecodingsample/media/DJIVideoStreamDecoder.java:218-264 | the full lookup table: P3 Advanced/Standard give 960x720_3s for width 960 and 1280x720_3s otherwise; P3 4K gives 640x480, 848x480 or 1280x720_3s; Phantom 4 gives p4; all other models give ins |
| KeyFrames.DefaultKeyFrame | android-videostreamdecodingsample/src/main/java/com/dji/videostreamdecodingsample/media/DJIVideoStreamDecoder.java:271-289 | a reference payload exists exactly when a product model is known, its lookup yields an asset (id not negative) and the asset can be read; the payload is that asset's bytes |
| KeyFrames.DefaultKeyFrameAvailability | android-videostreamdecodingsample/src/main/java/com/dji/videostreamdecodingsample/media/DJIVideoStreamDecoder.java:221-288 | with every bundled resource readable, a reference is found exactly for a known product other than the Osmo models, and for a model with an asset of the stream's width it is that asset; with no resource readable there is never a reference |
| Watchdog.OnBuffersChanged | android-videostreamdecodingsample/src/main/java/com/dji/videostreamdecodingsample/media/DJIVideoStreamDecoder.java:606-618 | a reset is requested exactly when at least nine earlier times are held and the oldest is less than 1000 ms before now; a reset empties the list; otherwise the list is the newest nine times including now, so it never exceeds nine |
| Watchdog.QuietIffNoReset | android-videostreamdecodingsample/src/main/java/com/dji/videostreamdecodingsample/media/DJIVideoStreamDecoder.java:606-618 | a run counts as quiet exactly when none of its per-event reset verdicts is set |
| Watchdog.QuietReplayKeepsNewest | android-videostreamdecodingsample/src/main/java/com/dji/videostreamdecodingsample/media/DJIVideoStreamDecoder.java:606-618 | while no reset fires, the list holds exactly the newest nine event times |
| Watchdog.ResetIffTenWithinWindow | android-videostreamdecodingsample/src/main/java/com/dji/videostreamdecodingsample/media/DJIVideoStreamDecoder.java:606-618 | from an empty list and with no earlier reset, event k resets exactly when it is at least the tenth and lies less than 1000 ms after event k-9 |
| Watchdog.NoResetBeforeTenthEvent | android-videostreamdecodingsample/src/main/java/com/dji/videostreamdecodingsample/media/DJIVideoStreamDecoder.java:607-608 | a run of events that fits in the list without reaching ten entries (in particular, fewer than ten events since the list was last emptied) triggers no reset |
| StreamDecoder.Initial | android-videostreamdecodingsample/src/main/java/com/dji/videostreamdecodingsample/media/DJIVideoStreamDecoder.java:169-176 | a new decoder has no size, no codec, an empty queue, both I-frame flags clear, an empty watchdog list and frame index -1, and its started handler has exactly one decode message pending |
| StreamDecoder.ReleaseCodec | android-videostreamdecodingsample/src/main/java/com/dji/videostreamdecodingsample/media/DJIVideoStreamDecoder.java:446-468 | releasing the codec empties the frame queue, clears both I-frame flags and drops the codec, leaving the size and the handler untouched |
| StreamDecoder.InitCodec | android-videostreamdecodingsample/src/main/java/com/dji/videostreamdecodingsample/media/DJIVideoStreamDecoder.java:295-345 | with a zero width or height nothing changes; otherwise the codec exists afterwards, and a codec that already existed is released first, which empties the queue and clears both flags |
| StreamDecoder.InitCodecIdempotent | android-videostreamdecodingsample/src/main/java/com/dji/videostreamdecodingsample/media/DJIVideoStreamDecoder.java:299-301 | with a codec in place, initialising twice is the same as initialising once |
| StreamDecoder.AdmitReference | android-videostreamdecodingsample/src/main/java/com/dji/videostreamdecodingsample/media/DJIVideoStreamDecoder.java:484-511 | the reference flag becomes set exactly when a reference payload is available or the frame is itself a key frame |
| StreamDecoder.Synthetic | android-videostreamdecodingsample/src/main/java/com/dji/videostreamdecodingsample/media/DJIVideoStreamDecoder.java:491-501 | the synthetic reference frame carries the bundled bytes and their length, frame number 0, the input's frame index minus one, the input's pts, size and key-frame flag, and the current time as arrival time |
| StreamDecoder.AdoptSize | android-videostreamdecodingsample/src/main/java/com/dji/videostreamdecodingsample/media/DJIVideoStreamDecoder.java:513-525 | the size is adopted and a codec exists exactly when both dimensions are non-zero and both differ; an existing codec is then released, emptying the queue |
| StreamDecoder.QueueIn | android-videostreamdecodingsample/src/main/java/com/dji/videostreamdecodingsample/media/DJIVideoStreamDecoder.java:474-535 | a frame that arrives before any reference and is neither frame 1 nor a key frame changes nothing; every other frame ends as the newest queue entry; queue bound, codec-size invariant and watchdog bound are preserved |
| StreamDecoder.ReferenceSynthesized | android-videostreamdecodingsample/src/main/java/com/dji/videostreamdecodingsample/media/DJIVideoStreamDecoder.java:490-505 | with a reference payload available (and no codec reset in between), the queue becomes exactly the synthetic frame then the input frame and the flag is set; the synthetic frame has frameNum 0, frameIndex one less than the input's, the input's size, pts and key flag, the payload's bytes and length, and arrival time now |
| StreamDecoder.ReferenceLostOnCodecReset | android-videostreamdecodingsample/src/main/java/com/dji/videostreamdecodingsample/media/DJIVideoStreamDecoder.java:513-524 | a resize that re-initialises an existing codec during reference admission leaves only the input frame queued and the flag clear |
| StreamDecoder.ResizeWithCodecDropsReference | android-videostreamdecodingsample/src/main/java/com/dji/videostreamdecodingsample/media/DJIVideoStreamDecoder.java:513-527 | any resize while a codec exists, with or without a queued reference, leaves only the resizing frame queued with both flags clear, after which a frame that is neither frame 1 nor a key frame is discarded |
| StreamDecoder.KeyFrameAdmittedWithoutSynthesis | android-videostreamdecodingsample/src/main/java/com/dji/videostreamdecodingsample/media/DJIVideoStreamDecoder.java:506-508 | with no reference payload, a genuine key frame sets the flag without synthesis and is enqueued behind the existing frames, unless it resizes a decoder that already has a codec (then only the key frame stays queued and the flag is clear) |
| StreamDecoder.FirstFrameQueuedWithoutReference | android-videostreamdecodingsample/src/main/java/com/dji/videostreamdecodingsample/media/DJIVideoStreamDecoder.java:509-511 | with no reference payload, frame 1 that is not a key frame leaves the flag clear but is still queued as the newest entry |
| StreamDecoder.ReferenceFlagPersists | android-videostreamdecodingsample/src/main/java/com/dji/videostreamdecodingsample/media/DJIVideoStreamDecoder.java:479-534 | once a reference is queued, later frames are simply enqueued and the flag stays set unless a codec re-initialisation intervenes |
| StreamDecoder.SizeAdoptedIffResizes | android-videostreamdecodingsample/src/main/java/com/dji/videostreamdecodingsample/media/DJIVideoStreamDecoder.java:513-525 | for an admitted frame, width and height change (and a codec is created) exactly when both dimensions are non-zero and both differ; otherwise size and codec are unchanged |
| StreamDecoder.WidthOnlyChangeIgnored | android-videostreamdecodingsample/src/main/java/com/dji/videostreamdecodingsample/media/DJIVideoStreamDecoder.java:513-515 | a frame whose width differs but whose height matches leaves size and codec alone |
| StreamDecoder.AcquireFrom | android-videostreamdecodingsample/src/main/java/com/dji/videostreamdecodingsample/media/DJIVideoStreamDecoder.java:553-563 | the retry loop makes at most 20 attempts, stops at the first slot it is given, every earlier attempt found no slot, failing means all 20 attempts were used, and the decoder is re-initialised exactly when some attempt threw IllegalStateException |
| StreamDecoder.Acquire | android-videostreamdecodingsample/src/main/java/com/dji/videostreamdecodingsample/media/DJIVideoStreamDecoder.java:550-563 | acquisition succeeds exactly when one of the first 20 answers is a slot, within at most 20 attempts |
| StreamDecoder.AcquireInputBuffer | android-videostreamdecodingsample/src/main/java/com/dji/videostreamdecodingsample/media/DJIVideoStreamDecoder.java:550-563 | the counted loop as written computes the same attempts, slot and decoder as the retry definition, never more than 20 attempts |
| StreamDecoder.Drain | android-videostreamdecodingsample/src/main/java/com/dji/videostreamdecodingsample/media/DJIVideoStreamDecoder.java:580-625 | after feeding, the codec-side flag is set; a picture goes to the listener exactly for a decoded buffer with no surface and a registered listener, reported at the current size; a buffers-changed answer sets the watchdog list to the watchdog's new list, and requests a reset exactly when the watchdog window is met, replacing all pending messages by one init message; other answers leave the list alone; nothing else in the decoder changes |
| StreamDecoder.Feed | android-videostreamdecodingsample/src/main/java/com/dji/videostreamdecodingsample/media/DJIVideoStreamDecoder.java:550-625 | with a codec in place, the frame is fed, stamped with the feed time, exactly when one of the first 20 input attempts offers a slot; without an IllegalStateException answer among those attempts the queue and the reference flag are untouched; pictures, resets and failures happen only after a feed and exactly on the matching output answer; the watchdog list moves only on a fed frame with a buffers-changed answer |
| StreamDecoder.DecodeFrame | android-videostreamdecodingsample/src/main/java/com/dji/videostreamdecodingsample/media/DJIVideoStreamDecoder.java:542-627 | an empty queue changes nothing; otherwise the oldest frame is fed (stamped with the feed time) exactly when the decoder has a picture size and one of the first 20 input attempts offers a slot; afterwards a codec exists exactly when the size is known; without an IllegalStateException answer the rest of the queue and the reference flag survive; a failure is reported exactly for a non-empty queue with no picture size or a fed frame meeting a codec fault; feeding sets the codec-side flag and nothing else does; the watchdog list becomes the watchdog's new list exactly on a fed frame with a buffers-changed answer; picture size, surface, listener, thread and frame counter are untouched |
| StreamDecoder.NoSlotDropsFrame | android-videostreamdecodingsample/src/main/java/com/dji/videostreamdecodingsample/media/DJIVideoStreamDecoder.java:553-567 | when no input slot is offered in 20 attempts the frame is not fed |
| StreamDecoder.WatchdogResetOnlyOnWindow | android-videostreamdecodingsample/src/main/java/com/dji/videostreamdecodingsample/media/DJIVideoStreamDecoder.java:603-618 | a decode step that sees a buffers-changed answer requests a reset exactly when the frame was fed and the watchdog window condition holds |
| DataHandler.HandleQueueIn | android-videostreamdecodingsample/src/main/java/com/dji/videostreamdecodingsample/media/DJIVideoStreamDecoder.java:368-379 | the decoder is exactly the result of frame admission, except that a decode message is made pending if none was: an admitted frame becomes the newest queue entry and a discarded one leaves the queue alone |
| DataHandler.HandleDecode | android-videostreamdecodingsample/src/main/java/com/dji/videostreamdecodingsample/media/DJIVideoStreamDecoder.java:380-393 | the decode message feeds exactly what one decode step feeds, and the fed frame is the queue head; unless the step fails, the decoder is exactly the decode step's result apart from a decode message re-posted while frames remain; a codec fault after feeding is recovered by a fresh codec with an empty queue and a cleared reference flag |
| DataHandler.Handle | android-videostreamdecodingsample/src/main/java/com/dji/videostreamdecodingsample/media/DJIVideoStreamDecoder.java:355-401 | every handled message leaves a live decoder; an init message creates a codec when the size is known and leaves exactly one decode message pending; queue-in yields exactly the frame admission's result with a decode message pending; a decode message feeds what one decode step feeds, yields the step's decoder when it does not fail, and recovers a codec fault after feeding by a fresh codec with an empty queue and cleared flag; change-surface does nothing |
| DataHandler.Step | android-videostreamdecodingsample/src/main/java/com/dji/videostreamdecodingsample/media/DJIVideoStreamDecoder.java:355-401 | handling the oldest pending message keeps the decoder live and does nothing when no message is pending; an init message at the head leaves one decode message pending and a codec when the size is known; an admitted queued-in frame at the head becomes the newest queue entry; a frame is fed only for a decode message at the head, and it is the queue head; a decode message at the head with a queued frame, a known size and a slot among the first 20 attempts does feed it |
| DataHandler.OnDataRecv | android-videostreamdecodingsample/src/main/java/com/dji/videostreamdecodingsample/media/DJIVideoStreamDecoder.java:654-671 | the frame counter advances exactly when the handler runs and the payload length equals the reported size, and then exactly one frame numbered with the new counter is posted and nothing else in the decoder changes; otherwise nothing changes |
| DataHandler.Stop | android-videostreamdecodingsample/src/main/java/com/dji/videostreamdecodingsample/media/DJIVideoStreamDecoder.java:632-644 | stop succeeds exactly on a running decoder and then leaves no pending work, an empty queue, both flags clear, no codec and a stopped thread; the picture size, frame counter, watchdog list, surface and listener are kept |
| DataHandler.Resume | android-videostreamdecodingsample/src/main/java/com/dji/videostreamdecodingsample/media/DJIVideoStreamDecoder.java:646-648 | resume restarts a stopped thread with one decode message pending and leaves a running one untouched; nothing but the thread and its messages changes |
| DataHandler.Init | android-videostreamdecodingsample/src/main/java/com/dji/videostreamdecodingsample/media/DJIVideoStreamDecoder.java:192-200 | init records the surface choice and posts a codec-init message only while the handler runs; nothing else changes |
| DataHandler.ChangeSurface | android-videostreamdecodingsample/src/main/java/com/dji/videostreamdecodingsample/media/DJIVideoStreamDecoder.java:438-441 | changing the surface re-initialises the codec at once: a known size yields a codec, an existing codec takes the queued frames and the flag with it, and without a codec the queue and flag survive; only the surface, the queue, the two flags and the codec can change |
| DataHandler.SetYuvDataListener | android-videostreamdecodingsample/src/main/java/com/dji/videostreamdecodingsample/media/DJIVideoStreamDecoder.java:98-100 | the listener is registered or removed, the decoder stays live, and nothing else changes |
| DataHandler.Apply | android-videostreamdecodingsample/src/main/java/com/dji/videostreamdecodingsample/media/DJIVideoStreamDecoder.java:355-401 | every external event keeps the decoder live |
| DataHandler.Run | android-videostreamdecodingsample/src/main/java/com/dji/videostreamdecodingsample/media/DJIVideoStreamDecoder.java:355-401 | every run of events from a live decoder ends in a live decoder |
| DataHandler.ReachableIsLive | android-videostreamdecodingsample/src/main/java/com/dji/videostreamdecodingsample/media/DJIVideoStreamDecoder.java:376-393 | from construction, any run of events keeps the queue within 30 frames, a codec only with a known size, at most nine watchdog times, and a decode message pending whenever frames wait |
| DataHandler.WatchdogResetRecreatesSession | android-videostreamdecodingsample/src/main/java/com/dji/videostreamdecodingsample/media/DJIVideoStreamDecoder.java:357-367 | after a watchdog reset the next handled message empties the queue, clears both flags, recreates the codec and leaves exactly one decode message pending |
| DataHandler.StopResumeAcceptsKeyFrame | android-videostreamdecodingsample/src/main/java/com/dji/videostreamdecodingsample/media/DJIVideoStreamDecoder.java:632-648 | after stop and resume a fresh key frame is accepted: it is queued as the newest entry, the reference flag is set and a decode is pending |
| DataHandler.MidGopStartFeedsReferenceFirst | android-videostreamdecodingsample/src/main/java/com/dji/videostreamdecodingsample/media/DJIVideoStreamDecoder.java:490-505 | a stream that starts with frame 1 as a non-key 1280x720 frame on a Phantom 4 has the synthetic reference queued ahead of it, and the reference is fed to the codec before frame 1 |

## Left out

- MediaCodec calls (`configure`, `start`, `flush`, `release`, `stop`, `reset`, buffer contents, the YUV copy) are a foreign hardware API. They appear only as the `codec` flag and the answer datatypes.
- Codec creation and configuration failures are not modelled: `InitCodec` assumes a codec is created whenever the size guard passes.
- An exception from `queueInputBuffer` is not separated from one from `dequeueOutputBuffer`. Both are the single `Fault` answer after feeding, and both recover through the handler's `initCodec`.
- The `outputBuffers == null` early return and the `getOutputBuffers` refresh after a buffers-changed answer have no effect on the modelled state.
- Threads and timing: the data handler is a list of pending messages handled one at a time. `sendEmptyMessageDelayed` is an append. The `join(3000)` in `stopDataHandler` is left out. `changeSurface` and `stop` run as atomic steps although the source calls them from another thread.
- DecodeFrame: one `now` stands for two separate clock reads in `decodeFrame`, the feed time (line 573) and the watchdog time (line 606). The model does not represent time passing between them.
- DecodeFrame: the picture is reported at the size current when it is posted. The source's callback reads the fields when the callback thread runs it, which is a race the model does not represent.
- `System.currentTimeMillis` is the `now` parameter. `DJISDKManager` product lookup is `Env.product`. Reading a bundled resource is `Env.resources`. A missing entry takes the read-failure path, which yields no reference frame.
- `NativeHelper` (the ffmpeg frame parser, `parse`, `destroy`), logging and the `DEBUG` switch are external code or have no observable effect.
- The null-frame check at the start of `onFrameQueueIn` is left out: `onDataRecv` never posts a null frame.
- The singleton `getInstance` is left out: the model passes the decoder value explicitly.
- Timestamps are unbounded integers. The source uses Java `long`, which does not overflow at realistic times.
- The two `ConnectionActivity` and `VideoDecodingApplication` files are UI, SDK registration and application glue. They are not part of this model.

## Findings

| source | as written | input that shows it | evidently intended | confidence | as-written member | corrected member |
|---|---|---|---|---|---|---|
| android-videostreamdecodingsample/src/main/java/com/dji/videostreamdecodingsample/media/DJIVideoStreamDecoder.java:143-146 | `getTotalDelay` returns `codecOutputTime - fedIntoCodecTime`, the same as `getDecodingDelay` | a frame arriving at 0, fed at 5, output at 12: total delay 7 | `codecOutputTime - incomingTimeMs`, the queueing delay plus the decoding delay (12) | medium, not executed; the getter has no caller | Frames.TotalDelayAsWritten (shown by Frames.TotalDelayCounterexample) | Frames.TotalDelay |

=== FILE: basics.dfy ===
/** Small shared vocabulary: an optional value and the "newest n entries"
    view of a sequence that both bounded buffers of the decoder keep. */
module Basics {

  /** A value that may be absent; stands in for Java's `null`. */
  datatype Option<+T> = None | Some(value: T)

  /** The last `n` entries of `s`, or all of `s` when it is shorter. */
  function Newest<T>(s: seq<T>, n: nat): seq<T>
  {
    if |s| <= n then s else s[|s| - n..]
  }

  /** The last entry of a non-empty sequence. */
  function Last<T>(s: seq<T>): T
    requires |s| > 0
  {
    s[|s| - 1]
  }

  /** Keeping the newest `n` entries, then appending and keeping the newest
      `n` again, is the same as appending first: a bounded buffer forgets
      nothing that the unbounded one would still hold among its newest `n`. */
  lemma NewestOfNewest<T>(s: seq<T>, t: seq<T>, n: nat)
    ensures Newest(Newest(s, n) + t, n) == Newest(s + t, n)
  {
  }

  /** One entry of `fs` pushed into a bounded buffer, then the rest: the
      newest `n` of everything, as if nothing had been dropped. */
  lemma NewestPush<T>(s: seq<T>, fs: seq<T>, n: nat)
    requires |fs| > 0
    ensures Newest(Newest(s + [fs[0]], n) + fs[1..], n) == Newest(s + fs, n)
  {
    NewestOfNewest(s + [fs[0]], fs[1..], n);
    assert s + [fs[0]] + fs[1..] == s + fs;
  }
}

=== FILE: data_handler.dfy ===
/** The data handler thread of `DJIVideoStreamDecoder` and the decoder's
    public entry points. Each message the thread handles is one atomic
    step; the parser callback (`onDataRecv`) and the lifecycle calls
    (`init`, `changeSurface`, `stop`, `resume`) are atomic steps too. */
module DataHandler {
  import opened Basics
  import opened Frames
  import opened FrameQueue
  import opened KeyFrames
  import opened StreamDecoder
  import Watchdog

  /** What the outside world supplies to one handled message: the
      environment of a reference lookup, the codec's answers and the clock. */
  datatype World = World(env: Env, inputs: seq<InputAnswer>, output: OutputAnswer, now: int)

  /** The decoder after one handled message, with the frame fed to the codec
      and the picture dispatched to the YUV listener, if any. */
  datatype Handled = Handled(decoder: Decoder, fed: Option<Frame>, picture: Option<Picture>)

  /** A valid decoder in which no queued frame is stranded: whenever frames
      wait, the thread runs and a decode message is pending. */
  predicate Live(d: Decoder)
  {
    Valid(d) && (d.queue != [] ==> d.running && DecodeFrameMsg in d.pending)
  }

  /** The frame-queue-in message: admit the frame, then make sure a decode
      message is pending. */
  function HandleQueueIn(d: Decoder, f: Frame, w: World): (r: Decoder)
    requires Valid(d) && d.running
    ensures Live(r) && r.running && DecodeFrameMsg in r.pending
    ensures !Discarded(d, f) ==> |r.queue| > 0 && Last(r.queue) == f
    ensures Discarded(d, f) ==> r.queue == d.queue
    ensures r == QueueIn(d, f, w.env, w.now).(pending := r.pending)
  {
    var d1 := QueueIn(d, f, w.env, w.now);
    if DecodeFrameMsg in d1.pending then d1 else d1.(pending := d1.pending + [DecodeFrameMsg])
  }

  /** The decode message: one `decodeFrame`; an exception escaping it
      re-initialises the codec, and another decode is scheduled while frames
      remain. */
  function HandleDecode(d: Decoder, w: World): (r: Handled)
    requires Valid(d) && d.running
    ensures Live(r.decoder) && r.decoder.running
    ensures r.fed == DecodeFrame(d, w.inputs, w.output, w.now).fed
    ensures r.picture.Some? ==> r.fed.Some?
    ensures r.fed.Some? ==> d.queue != [] && r.fed.value == d.queue[0].(fedIntoCodecTime := w.now)
    ensures r.fed.Some? && w.output == Fault ==>
      r.decoder.queue == [] && !r.decoder.hasIFrameInQueue && r.decoder.codec
    ensures !DecodeFrame(d, w.inputs, w.output, w.now).failed ==>
      r.decoder == DecodeFrame(d, w.inputs, w.output, w.now).decoder.(pending := r.decoder.pending)
  {
    var r := DecodeFrame(d, w.inputs, w.output, w.now);
    var d1 := if r.failed then InitCodec(r.decoder) else r.decoder;
    var d2 := if d1.queue != [] then d1.(pending := d1.pending + [DecodeFrameMsg]) else d1;
    Handled(d2, r.fed, r.picture)
  }

  /** `handleMessage` for one message taken off the pending list. */
  function Handle(d: Decoder, msg: Msg, w: World): (r: Handled)
    requires Valid(d) && d.running
    requires d.queue != [] ==> DecodeFrameMsg in d.pending || msg == DecodeFrameMsg
    ensures Live(r.decoder) && r.decoder.running
    ensures r.fed.Some? || r.picture.Some? ==> msg == DecodeFrameMsg
    ensures r.fed.Some? ==> d.queue != [] && r.fed.value == d.queue[0].(fedIntoCodecTime := w.now)
    ensures msg.FrameQueueInMsg? ==> DecodeFrameMsg in r.decoder.pending
    ensures msg == InitCodecMsg ==> r.decoder.pending == [DecodeFrameMsg]
    ensures msg == InitCodecMsg && Sized(d) ==> r.decoder.codec
    ensures msg.FrameQueueInMsg? && !Discarded(d, msg.frame) ==> |r.decoder.queue| > 0 && Last(r.decoder.queue) == msg.frame
    ensures msg.FrameQueueInMsg? && Discarded(d, msg.frame) ==> r.decoder.queue == d.queue
    ensures msg == DecodeFrameMsg ==> r.fed == DecodeFrame(d, w.inputs, w.output, w.now).fed
    ensures msg == DecodeFrameMsg && r.fed.Some? && w.output == Fault ==>
      r.decoder.queue == [] && !r.decoder.hasIFrameInQueue && r.decoder.codec
    ensures msg == DecodeFrameMsg && !DecodeFrame(d, w.inputs, w.output, w.now).failed ==>
      r.decoder == DecodeFrame(d, w.inputs, w.output, w.now).decoder.(pending := r.decoder.pending)
    ensures msg.FrameQueueInMsg? ==> r.decoder == QueueIn(d, msg.frame, w.env, w.now).(pending := r.decoder.pending)
    ensures msg == ChangeSurfaceMsg ==> r == Handled(d, None, None)
  {
    match msg
    case InitCodecMsg =>
      // initCodec, then drop everything pending and schedule one decode.
      Handled(InitCodec(d).(pending := [DecodeFrameMsg]), None, None)
    case FrameQueueInMsg(f) => Handled(HandleQueueIn(d, f, w), None, None)
    case DecodeFrameMsg => HandleDecode(d, w)
    case ChangeSurfaceMsg =>
      Handled(d, None, None)
  }

  /** The thread handles its oldest pending message; a stopped thread or an
      empty message queue does nothing. */
  function Step(d: Decoder, w: World): (r: Handled)
    requires Live(d)
    ensures Live(r.decoder)
    ensures d.pending == [] ==> r == Handled(d, None, None)
    ensures r.fed.Some? ==>
      && d.pending != [] && d.pending[0] == DecodeFrameMsg
      && d.queue != [] && r.fed.value == d.queue[0].(fedIntoCodecTime := w.now)
    ensures (&& d.running && d.pending != [] && d.pending[0] == DecodeFrameMsg && d.queue != [] && Sized(d)
             && exists j :: 0 <= j < INPUT_RETRIES && AnswerAt(w.inputs, j).Slot?) ==> r.fed.Some?
    ensures d.running && d.pending != [] && d.pending[0] == InitCodecMsg ==>
      r.decoder.pending == [DecodeFrameMsg] && (Sized(d) ==> r.decoder.codec)
    ensures d.running && d.pending != [] && d.pending[0].FrameQueueInMsg? && !Discarded(d, d.pending[0].frame) ==>
      |r.decoder.queue| > 0 && Last(r.decoder.queue) == d.pending[0].frame
  {
    if !d.running || d.pending == [] then Handled(d, None, None)
    else Handle(d.(pending := d.pending[1..]), d.pending[0], w)
  }

  /** `onDataRecv`: while the thread runs and the payload length matches the
      reported size, number the frame and post it to the thread. */
  function OnDataRecv(d: Decoder, data: seq<byte>, size: int, frameNum: int, isKeyFrame: bool,
                      width: int, height: int, now: int): (r: Decoder)
    requires Live(d)
    ensures Live(r)
    ensures r.frameIndex != d.frameIndex <==> d.running && |data| == size
    ensures r.frameIndex != d.frameIndex ==>
      && (r.frameIndex - (d.frameIndex + 1)) % INT32_MODULUS == 0
      && r.pending == d.pending + [FrameQueueInMsg(
           NewFrame(data, size, now, now, isKeyFrame, frameNum, r.frameIndex, width, height))]
    ensures r.frameIndex == d.frameIndex ==> r == d
    ensures r == d.(frameIndex := r.frameIndex, pending := r.pending)
  {
    if !d.running || |data| != size then d
    else
      var index := Int32Inc(d.frameIndex);
      var frame := NewFrame(data, size, now, now, isKeyFrame, frameNum, index, width, height);
      d.(frameIndex := index, pending := d.pending + [FrameQueueInMsg(frame)])
  }

  /** `stop`: drop pending messages and queued frames, clear both flags, end
      the thread and release the codec. A decoder already stopped has no
      handler, and `stop` fails with a null dereference (`None`). */
  function Stop(d: Decoder): (r: Option<Decoder>)
    requires Live(d)
    ensures r.Some? <==> d.running
    ensures r.Some? ==> Live(r.value) && !r.value.running && r.value.pending == []
    ensures r.Some? ==> r.value.queue == [] && !r.value.hasIFrameInQueue && !r.value.hasIFrameInCodec
    ensures r.Some? ==> !r.value.codec && r.value.width == d.width && r.value.height == d.height
    ensures r.Some? ==> r.value == d.(pending := r.value.pending, queue := r.value.queue,
                                      hasIFrameInQueue := r.value.hasIFrameInQueue,
                                      hasIFrameInCodec := r.value.hasIFrameInCodec,
                                      codec := r.value.codec, running := r.value.running)
  {
    if !d.running then None
    else
      var cleared := d.(pending := [], queue := [], hasIFrameInQueue := false, hasIFrameInCodec := false);
      Some(ReleaseCodec(cleared).(running := false))
  }

  /** `resume`: start the thread again if it is not running, with one decode
      message pending. */
  function Resume(d: Decoder): (r: Decoder)
    requires Live(d)
    ensures Live(r) && r.running
    ensures d.running ==> r == d
    ensures !d.running ==> r.pending == [DecodeFrameMsg] && r.queue == d.queue && r.codec == d.codec
    ensures r == d.(running := r.running, pending := r.pending)
  {
    if d.running then d else d.(running := true, pending := [DecodeFrameMsg])
  }

  /** `init`: record whether a display surface is used and, while the thread
      runs, ask it to initialise the codec. */
  function Init(d: Decoder, surface: bool): (r: Decoder)
    requires Live(d)
    ensures Live(r) && r.surface == surface
    ensures r.pending == if d.running then d.pending + [InitCodecMsg] else d.pending
    ensures r.queue == d.queue && r.codec == d.codec
    ensures r == d.(surface := r.surface, pending := r.pending)
  {
    d.(surface := surface, pending := if d.running then d.pending + [InitCodecMsg] else d.pending)
  }

  /** `changeSurface`: switch surface and re-initialise the codec directly. */
  function ChangeSurface(d: Decoder, surface: bool): (r: Decoder)
    requires Live(d)
    ensures Live(r) && r.surface == surface
    ensures Sized(d) ==> r.codec
    ensures d.codec ==> r.queue == [] && !r.hasIFrameInQueue
    ensures !d.codec ==> r.queue == d.queue && r.hasIFrameInQueue == d.hasIFrameInQueue
    ensures r == d.(surface := r.surface, queue := r.queue, hasIFrameInQueue := r.hasIFrameInQueue,
                    hasIFrameInCodec := r.hasIFrameInCodec, codec := r.codec)
  {
    InitCodec(d.(surface := surface))
  }

  /** `setYuvDataListener`: register or remove the YUV listener. */
  function SetYuvDataListener(d: Decoder, present: bool): (r: Decoder)
    requires Live(d)
    ensures Live(r) && r.listener == present
    ensures r == d.(listener := r.listener)
  {
    d.(listener := present)
  }

  /** Everything that can happen to the decoder from outside. */
  datatype Event =
    | Receive(data: seq<byte>, size: int, frameNum: int, isKeyFrame: bool, width: int, height: int, now: int)
    | Process(world: World)
    | StopCall
    | ResumeCall
    | InitCall(withSurface: bool)
    | ChangeSurfaceCall(toSurface: bool)
    | ListenerCall(present: bool)

  /** One event; a `stop` on a stopped decoder throws and changes nothing. */
  function Apply(d: Decoder, e: Event): (r: Decoder)
    requires Live(d)
    ensures Live(r)
  {
    match e
    case Receive(data, size, frameNum, isKeyFrame, width, height, now) =>
      OnDataRecv(d, data, size, frameNum, isKeyFrame, width, height, now)
    case Process(w) => Step(d, w).decoder
    case StopCall => match Stop(d) { case Some(s) => s case None => d }
    case ResumeCall => Resume(d)
    case InitCall(s) => Init(d, s)
    case ChangeSurfaceCall(s) => ChangeSurface(d, s)
    case ListenerCall(p) => SetYuvDataListener(d, p)
  }

  /** A run of events from a given decoder. */
  function Run(d: Decoder, events: seq<Event>): (r: Decoder)
    requires Live(d)
    ensures Live(r)
    decreases |events|
  {
    if events == [] then d else Run(Apply(d, events[0]), events[1..])
  }

  /** Whatever happens after construction, the frame queue never exceeds 30
      frames, a codec exists only for a known picture size, the watchdog
      keeps at most nine times, and no queued frame waits without a decode
      message to serve it. */
  lemma {:induction false} ReachableIsLive(events: seq<Event>)
    ensures var d := Run(Initial(), events);
      && |d.queue| <= CAPACITY
      && (d.codec ==> d.width != 0 && d.height != 0)
      && |d.bufferChanged| <= Watchdog.RETAINED
      && (d.queue != [] ==> d.running && DecodeFrameMsg in d.pending)
  {
    assert Live(Initial());
  }

  /** A watchdog reset during a decode step is carried out by the next
      step: the queue is emptied, both flags are cleared, a fresh codec is
      created, and a single decode message is pending. */
  lemma WatchdogResetRecreatesSession(d: Decoder, w: World, w': World)
    requires Live(d) && d.running && d.pending != [] && d.pending[0] == DecodeFrameMsg
    requires DecodeFrame(d.(pending := d.pending[1..]), w.inputs, w.output, w.now).reset
    ensures var s1 := Step(d, w).decoder;
      && s1.pending != [] && s1.pending[0] == InitCodecMsg
      && var s2 := Step(s1, w').decoder;
      && s2.queue == [] && !s2.hasIFrameInQueue && !s2.hasIFrameInCodec && s2.codec
      && s2.pending == [DecodeFrameMsg] && s2.bufferChanged == []
  {
  }

  /** After `stop` and `resume` the decoder accepts a fresh key frame: the
      frame is queued, the reference flag is set and a decode is pending. */
  lemma StopResumeAcceptsKeyFrame(d: Decoder, f: Frame, w: World)
    requires Live(d) && d.running && f.isKeyFrame
    ensures Stop(d).Some?
    ensures var d' := Resume(Stop(d).value);
      var r := Handle(d', FrameQueueInMsg(f), w).decoder;
      && r.hasIFrameInQueue && r.queue != [] && Last(r.queue) == f
      && r.running && DecodeFrameMsg in r.pending
  {
  }

  /** A stream joined mid-GOP: the first frame received is frame 1, not a key
      frame, 1280x720, on a Phantom 4 whose reference frame is bundled. The
      data handler first finds nothing to decode, then queues the synthetic
      reference ahead of frame 1, then feeds the reference, then frame 1. */
  lemma MidGopStartFeedsReferenceFirst(data: seq<byte>, t0: int, w: World, bytes: seq<byte>)
    requires w.env == Env(Some(Phantom4), map[Iframe1280x720_p4 := bytes])
    requires AnswerAt(w.inputs, 0).Slot? && w.output == TryAgainLater
    ensures
      var d0 := OnDataRecv(Initial(), data, |data|, 1, false, 1280, 720, t0);
      var s1 := Step(d0, w).decoder;
      var s2 := Step(s1, w).decoder;
      var s3 := Step(s2, w);
      var s4 := Step(s3.decoder, w);
      && s1.queue == []
      && |s2.queue| == 2 && s2.queue[0].frameNum == 0 && s2.queue[0].payload == bytes
      && s2.queue[1].frameNum == 1 && s2.hasIFrameInQueue
      && s3.fed.Some? && s3.fed.value.frameNum == 0 && s3.fed.value.frameIndex == -1
      && s4.fed.Some? && s4.fed.value.frameNum == 1 && s4.fed.value.frameIndex == 0
  {
    var d0 := OnDataRecv(Initial(), data, |data|, 1, false, 1280, 720, t0);
    assert d0.pending == [DecodeFrameMsg, FrameQueueInMsg(d0.pending[1].frame)];
    var s1 := Step(d0, w).decoder;
    assert s1.queue == [] && s1.pending == [FrameQueueInMsg(d0.pending[1].frame)];
    var s2 := Step(s1, w).decoder;
    assert s2.pending == [DecodeFrameMsg] && s2.codec;
    var s3 := Step(s2, w);
    assert s3.decoder.queue == s2.queue[1..] && s3.decoder.pending == [DecodeFrameMsg];
  }
}

=== FILE: frame_queue.dfy ===
/** The decoder's bounded frame queue: an `ArrayBlockingQueue` of capacity
    30 whose producer, on a failed `offer`, polls the oldest entry and
    offers again (drop-oldest overflow). */
module FrameQueue {
  import opened Basics
  import opened Frames

  /** `BUF_QUEUE_SIZE`. */
  const CAPACITY: nat := 30

  /** Enqueue `f`; when the queue is full the head (oldest) entry is
      evicted first. */
  function Offer<T>(q: seq<T>, f: T): (r: seq<T>)
    requires |q| <= CAPACITY
    ensures |r| <= CAPACITY && |r| > 0 && Last(r) == f
    ensures r == Newest(q + [f], CAPACITY)
    ensures |q| < CAPACITY ==> |r| == |q| + 1
  {
    if |q| < CAPACITY then q + [f] else q[1..] + [f]
  }

  /** Enqueue every entry of `fs` in order. */
  function OfferAll<T>(q: seq<T>, fs: seq<T>): (r: seq<T>)
    requires |q| <= CAPACITY
    ensures |r| <= CAPACITY
    ensures |fs| > 0 ==> |r| > 0 && Last(r) == Last(fs)
    decreases |fs|
  {
    if |fs| == 0 then q else OfferAll(Offer(q, fs[0]), fs[1..])
  }

  /** However many frames arrive, the queue holds exactly the newest 30 of
      everything it has seen, in arrival order. */
  lemma {:induction false} OfferAllKeepsNewest<T>(q: seq<T>, fs: seq<T>)
    requires |q| <= CAPACITY
    ensures OfferAll(q, fs) == Newest(q + fs, CAPACITY)
    decreases |fs|
  {
    if |fs| > 0 {
      var q' := Offer(q, fs[0]);
      calc {
        OfferAll(q, fs);
        OfferAll(q', fs[1..]);
        { OfferAllKeepsNewest(q', fs[1..]); }
        Newest(q' + fs[1..], CAPACITY);
        { NewestPush(q, fs, CAPACITY); }
        Newest(q + fs, CAPACITY);
      }
    }
  }

  /** Thirty-five frames numbered 1..35 offered to an empty queue leave
      frames 6..35, oldest first: the first five were evicted. */
  lemma ThirtyFiveFramesKeepLastThirty(fs: seq<Frame>)
    requires |fs| == 35
    requires forall i :: 0 <= i < |fs| ==> fs[i].frameNum == i + 1
    ensures var q := OfferAll([], fs);
      |q| == 30 && forall i :: 0 <= i < |q| ==> q[i].frameNum == i + 6
  {
    OfferAllKeepsNewest([], fs);
    assert [] + fs == fs;
  }
}

=== FILE: frames.dfy ===
/** The access-unit record (`DJIFrame`) the decoder queues, its delay
    getters, and the Java `int` arithmetic the decoder performs on frame
    counters. */
module Frames {

  /** One byte of a compressed payload. */
  newtype byte = b: int | 0 <= b < 256

  const INT32_MIN: int := -0x8000_0000
  const INT32_MAX: int := 0x7FFF_FFFF
  const INT32_MODULUS: int := 0x1_0000_0000

  predicate IsInt32(x: int)
  {
    INT32_MIN <= x <= INT32_MAX
  }

  /** Java's `x++` on an `int`: the 32-bit two's-complement successor. */
  function Int32Inc(x: int): (r: int)
    requires IsInt32(x)
    ensures IsInt32(r)
    ensures (r - (x + 1)) % INT32_MODULUS == 0
  {
    if x == INT32_MAX then INT32_MIN else x + 1
  }

  /** One parsed access unit plus its timing metadata. Times are
      milliseconds; `frameIndex` is the decoder's own running counter and
      `frameNum` the parser's sequence number within the stream. */
  datatype Frame = Frame(
    payload: seq<byte>,
    size: int,
    pts: int,
    incomingTimeMs: int,
    fedIntoCodecTime: int,
    codecOutputTime: int,
    isKeyFrame: bool,
    frameNum: int,
    frameIndex: int,
    width: int,
    height: int)

  /** The record's constructor: the feed and output times start at zero,
      as Java's default `long` field value. */
  function NewFrame(payload: seq<byte>, size: int, pts: int, incomingTimeMs: int,
                    isKeyFrame: bool, frameNum: int, frameIndex: int,
                    width: int, height: int): (r: Frame)
    ensures r.payload == payload && r.size == size && r.pts == pts && r.incomingTimeMs == incomingTimeMs
    ensures r.isKeyFrame == isKeyFrame && r.frameNum == frameNum && r.frameIndex == frameIndex
    ensures r.width == width && r.height == height
    ensures r.fedIntoCodecTime == 0 && r.codecOutputTime == 0 && DecodingDelay(r) == 0
  {
    Frame(payload, size, pts, incomingTimeMs, 0, 0, isKeyFrame, frameNum, frameIndex, width, height)
  }

  /** Time the frame spent in the queue before it was fed. */
  function QueueDelay(f: Frame): (r: int)
    ensures r >= 0 <==> f.fedIntoCodecTime >= f.incomingTimeMs
  {
    f.fedIntoCodecTime - f.incomingTimeMs
  }

  /** Time the codec spent on the frame. */
  function DecodingDelay(f: Frame): (r: int)
    ensures r >= 0 <==> f.codecOutputTime >= f.fedIntoCodecTime
  {
    f.codecOutputTime - f.fedIntoCodecTime
  }

  /** `getTotalDelay` as written: the same difference as the decoding delay. */
  function TotalDelayAsWritten(f: Frame): (r: int)
    ensures r == DecodingDelay(f)
    ensures r >= 0 <==> f.codecOutputTime >= f.fedIntoCodecTime
  {
    f.codecOutputTime - f.fedIntoCodecTime
  }

  /** The total delay from arrival to codec output. */
  function TotalDelay(f: Frame): (r: int)
    ensures r == QueueDelay(f) + DecodingDelay(f)
  {
    f.codecOutputTime - f.incomingTimeMs
  }

  /** The as-written total delay never counts queueing: it is the decoding
      delay, and it agrees with the arrival-to-output delay exactly when the
      frame was fed the moment it arrived. */
  lemma TotalDelayAsWrittenOmitsQueueing(f: Frame)
    ensures TotalDelayAsWritten(f) == DecodingDelay(f)
    ensures TotalDelayAsWritten(f) == TotalDelay(f) <==> QueueDelay(f) == 0
  {
  }

  /** A concrete frame that arrived at 0, was fed at 5 and came out at 12:
      the as-written getter reports 7, the arrival-to-output delay is 12. */
  lemma TotalDelayCounterexample()
    ensures var f := Frame([], 0, 0, 0, 5, 12, false, 1, 0, 1280, 720);
      TotalDelayAsWritten(f) == 7 && TotalDelay(f) == 12
  {
  }
}

=== FILE: key_frames.dfy ===
/** The reference-frame provider: which bundled black IDR frame primes the
    decoder for a given product model and stream width. */
module KeyFrames {
  import opened Basics
  import opened Frames

  /** Product models the lookup distinguishes; every other model of the
      SDK behaves like `OtherModel`. */
  datatype Model =
    | Phantom3Advanced
    | Phantom3Standard
    | Phantom3_4K
    | Phantom3Professional
    | Phantom4
    | Inspire1
    | Osmo
    | OsmoPro
    | OtherModel

  /** The bundled raw IDR resources. */
  datatype Asset =
    | Iframe1280x720_ins
    | Iframe960x720_3s
    | Iframe1280x720_3s
    | Iframe640x480
    | Iframe848x480
    | Iframe1280x720_p4

  /** Picture width of a bundled asset, as its name states. */
  function AssetWidth(a: Asset): int
  {
    match a
    case Iframe960x720_3s => 960
    case Iframe640x480 => 640
    case Iframe848x480 => 848
    case _ => 1280
  }

  /** Stream widths other than 1280 for which a model has a dedicated asset. */
  function DedicatedWidths(m: Model): set<int>
  {
    match m
    case Phantom3Advanced => {960}
    case Phantom3Standard => {960}
    case Phantom3_4K => {640, 848}
    case _ => {}
  }

  /** Whether a model has no bundled reference frame at all. */
  predicate WithoutAsset(m: Model)
  {
    m == Osmo || m == OsmoPro
  }

  /** `getIframeRawId`: the resource for a model and stream width; `None`
      stands for the resource id -1. */
  function IframeRawId(m: Model, width: int): (r: Option<Asset>)
    ensures r.None? <==> WithoutAsset(m)
    ensures r.Some? ==> (AssetWidth(r.value) == width <==> width in DedicatedWidths(m) || width == 1280)
    ensures r.Some? && width !in DedicatedWidths(m) ==> AssetWidth(r.value) == 1280
  {
    match m
    case Phantom3Advanced =>
      if width == 960 then Some(Iframe960x720_3s) else Some(Iframe1280x720_3s)
    case Phantom3Standard =>
      if width == 960 then Some(Iframe960x720_3s) else Some(Iframe1280x720_3s)
    case Phantom3_4K =>
      if width == 640 then Some(Iframe640x480)
      else if width == 848 then Some(Iframe848x480)
      else Some(Iframe1280x720_3s)
    case Osmo => None
    case OsmoPro => None
    case Phantom4 => Some(Iframe1280x720_p4)
    case _ => Some(Iframe1280x720_ins)
  }

  /** The whole lookup table, model by model. */
  lemma IframeRawIdTable(m: Model, width: int)
    ensures (m == Phantom3Advanced || m == Phantom3Standard) ==>
      IframeRawId(m, width) == Some(if width == 960 then Iframe960x720_3s else Iframe1280x720_3s)
    ensures m == Phantom3_4K ==>
      IframeRawId(m, width) == Some(if width == 640 then Iframe640x480
                                    else if width == 848 then Iframe848x480
                                    else Iframe1280x720_3s)
    ensures m == Phantom4 ==> IframeRawId(m, width) == Some(Iframe1280x720_p4)
    ensures !WithoutAsset(m) && m !in {Phantom3Advanced, Phantom3Standard, Phantom3_4K, Phantom4} ==>
      IframeRawId(m, width) == Some(Iframe1280x720_ins)
  {
  }

  /** What the decoder knows about its surroundings when it looks for a
      reference frame: the connected product's model (absent when no
      product or no model is known) and the bundled resources it can read
      (a missing entry is a resource that fails to read). */
  datatype Env = Env(product: Option<Model>, resources: map<Asset, seq<byte>>)

  /** `getDefaultKeyFrame`: the bytes of the matching bundled IDR frame. */
  function DefaultKeyFrame(env: Env, width: int): (r: Option<seq<byte>>)
    ensures r.Some? <==>
      env.product.Some? && IframeRawId(env.product.value, width).Some?
      && IframeRawId(env.product.value, width).value in env.resources
    ensures r.Some? ==> r.value == env.resources[IframeRawId(env.product.value, width).value]
  {
    match env.product
    case None => None
    case Some(m) =>
      match IframeRawId(m, width)
      case None => None
      case Some(a) => if a in env.resources then Some(env.resources[a]) else None
  }

  /** With every bundled resource readable, a reference frame is found
      exactly for a known product other than the Osmo models, and it is the
      asset of the stream's width when the model has one; with no resource
      readable, none is ever found. */
  lemma DefaultKeyFrameAvailability(env: Env, width: int)
    ensures (forall a: Asset :: a in env.resources) ==>
      (DefaultKeyFrame(env, width).Some? <==> env.product.Some? && !WithoutAsset(env.product.value))
    ensures (forall a: Asset :: a in env.resources) && env.product.Some? && width in DedicatedWidths(env.product.value) ==>
      exists a :: a in env.resources && AssetWidth(a) == width && DefaultKeyFrame(env, width) == Some(env.resources[a])
    ensures env.resources == map[] ==> DefaultKeyFrame(env, width).None?
  {
    if (forall a: Asset :: a in env.resources) && env.product.Some? && width in DedicatedWidths(env.product.value) {
      var a := IframeRawId(env.product.value, width).value;
      assert a in env.resources && AssetWidth(a) == width;
    }
  }
}

=== FILE: stream_decoder.dfy ===
/** The decoder session of `DJIVideoStreamDecoder`: its state record, codec
    (re)initialisation and release, frame admission (`onFrameQueueIn`) and
    one decode step (`decodeFrame`). The hardware codec is reduced to
    whether a codec handle exists and to the answers its calls return. */
module StreamDecoder {
  import opened Basics
  import opened Frames
  import opened FrameQueue
  import opened KeyFrames
  import Watchdog

  /** Messages of the data handler thread. */
  datatype Msg = InitCodecMsg | FrameQueueInMsg(frame: Frame) | DecodeFrameMsg | ChangeSurfaceMsg

  /** The decoder's mutable fields as one value. `codec` says whether a codec
      handle exists, `surface` whether a display surface is configured,
      `listener` whether a YUV listener is registered, `running` whether the
      data handler thread is alive, and `pending` the messages waiting on it. */
  datatype Decoder = Decoder(
    queue: seq<Frame>,
    hasIFrameInQueue: bool,
    hasIFrameInCodec: bool,
    width: int,
    height: int,
    bufferChanged: seq<int>,
    frameIndex: int,
    codec: bool,
    surface: bool,
    listener: bool,
    running: bool,
    pending: seq<Msg>)

  /** Whether the decoder knows a usable (non-zero) picture size. */
  predicate Sized(d: Decoder)
  {
    d.width != 0 && d.height != 0
  }

  /** What every reachable decoder satisfies. */
  predicate Valid(d: Decoder)
  {
    && |d.queue| <= CAPACITY
    && (d.codec ==> Sized(d))
    && |d.bufferChanged| <= Watchdog.RETAINED
    && IsInt32(d.frameIndex)
    && (!d.running ==> d.pending == [])
  }

  /** The decoder right after construction: the data handler is started and
      has one decode message waiting. */
  function Initial(): (d: Decoder)
    ensures Valid(d) && !Sized(d) && !d.codec && d.queue == []
    ensures d.running && d.pending == [DecodeFrameMsg]
    ensures d.frameIndex == -1 && !d.hasIFrameInQueue && !d.hasIFrameInCodec && d.bufferChanged == []
  {
    Decoder([], false, false, 0, 0, [], -1, false, false, false, true, [DecodeFrameMsg])
  }

  /** Everything except the frame queue, the two I-frame flags and the codec
      handle is the same in `a` and `b`. */
  predicate SameSession(a: Decoder, b: Decoder)
  {
    && a.width == b.width && a.height == b.height
    && a.bufferChanged == b.bufferChanged && a.frameIndex == b.frameIndex
    && a.surface == b.surface && a.listener == b.listener
    && a.running == b.running && a.pending == b.pending
  }

  /** `releaseCodec`: empty the queue, clear both flags, drop the codec. */
  function ReleaseCodec(d: Decoder): (r: Decoder)
    requires Valid(d)
    ensures Valid(r) && SameSession(d, r)
    ensures r.queue == [] && !r.hasIFrameInQueue && !r.hasIFrameInCodec && !r.codec
  {
    d.(queue := [], hasIFrameInQueue := false, hasIFrameInCodec := false, codec := false)
  }

  /** `initCodec`: nothing without a known size; otherwise release any
      existing codec and create a fresh one. */
  function InitCodec(d: Decoder): (r: Decoder)
    requires Valid(d)
    ensures Valid(r) && SameSession(d, r)
    ensures !Sized(d) ==> r == d
    ensures Sized(d) ==> r.codec
    ensures d.codec ==> r.queue == [] && !r.hasIFrameInQueue && !r.hasIFrameInCodec
    ensures !d.codec ==> r.queue == d.queue && r.hasIFrameInQueue == d.hasIFrameInQueue
                         && r.hasIFrameInCodec == d.hasIFrameInCodec
  {
    if !Sized(d) then d
    else
      var released := if d.codec then ReleaseCodec(d) else d;
      released.(codec := true)
  }

  /** With a codec in place, re-initialising twice in a row is
      re-initialising once. */
  lemma InitCodecIdempotent(d: Decoder)
    requires Valid(d) && d.codec
    ensures InitCodec(InitCodec(d)) == InitCodec(d)
  {
  }

  // ---------------------------------------------------------------------
  // Frame admission (onFrameQueueIn)
  // ---------------------------------------------------------------------

  /** Whether `f` is a frame the decoder waits on while it has no reference:
      anything but the stream's first frame or a key frame is discarded. */
  predicate Discarded(d: Decoder, f: Frame)
  {
    !d.hasIFrameInQueue && f.frameNum != 1 && !f.isKeyFrame
  }

  /** Whether `f` makes the decoder adopt a new picture size: both of its
      dimensions are non-zero and both differ from the current ones. */
  predicate Resizes(d: Decoder, f: Frame)
  {
    f.width != 0 && f.height != 0 && f.width != d.width && f.height != d.height
  }

  /** The black reference frame synthesised ahead of `f` from `bytes`. */
  function Synthetic(f: Frame, bytes: seq<byte>, now: int): (r: Frame)
    ensures r.frameNum == 0 && r.frameIndex + 1 == f.frameIndex
    ensures r.payload == bytes && r.size == |r.payload| && r.isKeyFrame == f.isKeyFrame
    ensures r.pts == f.pts && r.width == f.width && r.height == f.height
    ensures r.incomingTimeMs == now && r.fedIntoCodecTime == 0 && r.codecOutputTime == 0
  {
    NewFrame(bytes, |bytes|, f.pts, now, f.isKeyFrame, 0, f.frameIndex - 1, f.width, f.height)
  }

  /** The reference step of `onFrameQueueIn` for an admitted frame while no
      I-frame is queued yet. */
  function AdmitReference(d: Decoder, f: Frame, env: Env, now: int): (r: Decoder)
    requires Valid(d)
    ensures Valid(r) && SameSession(d, r) && r.codec == d.codec
    ensures r.hasIFrameInQueue <==> d.hasIFrameInQueue || DefaultKeyFrame(env, f.width).Some? || f.isKeyFrame
  {
    match DefaultKeyFrame(env, f.width)
    case Some(bytes) => d.(queue := [Synthetic(f, bytes, now)], hasIFrameInQueue := true)
    case None => if f.isKeyFrame then d.(hasIFrameInQueue := true) else d
  }

  /** Adopt the picture size of `f` when it resizes the decoder, which
      re-initialises the codec. */
  function AdoptSize(d: Decoder, f: Frame): (r: Decoder)
    requires Valid(d)
    ensures Valid(r)
    ensures Resizes(d, f) ==> r.width == f.width && r.height == f.height && r.codec
    ensures !Resizes(d, f) ==> r == d
    ensures Resizes(d, f) && d.codec ==> r.queue == [] && !r.hasIFrameInQueue
    ensures Resizes(d, f) && !d.codec ==> r.queue == d.queue && r.hasIFrameInQueue == d.hasIFrameInQueue
  {
    if Resizes(d, f) then InitCodec(d.(width := f.width, height := f.height)) else d
  }

  /** `onFrameQueueIn`: discard the frame while waiting for a reference, or
      admit it (behind a synthetic reference frame when one is available),
      adopt its size, and enqueue it with drop-oldest overflow. */
  function QueueIn(d: Decoder, f: Frame, env: Env, now: int): (r: Decoder)
    requires Valid(d)
    ensures Valid(r)
    ensures Discarded(d, f) ==> r == d
    ensures !Discarded(d, f) ==> |r.queue| > 0 && Last(r.queue) == f
    ensures r.frameIndex == d.frameIndex && r.running == d.running && r.pending == d.pending
    ensures r.surface == d.surface && r.listener == d.listener && r.bufferChanged == d.bufferChanged
  {
    if Discarded(d, f) then d
    else
      var d1 := if d.hasIFrameInQueue then d else AdmitReference(d, f, env, now);
      var d2 := AdoptSize(d1, f);
      d2.(queue := Offer(d2.queue, f))
  }

  /** A synthetic reference frame, when available, empties the queue and is
      put in front of the input frame — unless a resize re-initialises an
      existing codec in between, which clears it again. */
  lemma ReferenceSynthesized(d: Decoder, f: Frame, env: Env, now: int, bytes: seq<byte>)
    requires Valid(d) && !d.hasIFrameInQueue && !Discarded(d, f)
    requires DefaultKeyFrame(env, f.width) == Some(bytes)
    requires !(Resizes(d, f) && d.codec)
    ensures var r := QueueIn(d, f, env, now);
      && r.hasIFrameInQueue
      && |r.queue| == 2 && r.queue[1] == f
      && r.queue[0].frameNum == 0 && r.queue[0].frameIndex == f.frameIndex - 1
      && r.queue[0].width == f.width && r.queue[0].height == f.height && r.queue[0].pts == f.pts
      && r.queue[0].payload == bytes && r.queue[0].size == |bytes|
      && r.queue[0].isKeyFrame == f.isKeyFrame && r.queue[0].incomingTimeMs == now
  {
  }

  /** As written, a resize that re-initialises an existing codec while the
      reference is being admitted throws the synthetic frame away and clears
      the flag again: only the input frame stays queued. */
  lemma ReferenceLostOnCodecReset(d: Decoder, f: Frame, env: Env, now: int)
    requires Valid(d) && !d.hasIFrameInQueue && !Discarded(d, f)
    requires Resizes(d, f) && d.codec
    ensures var r := QueueIn(d, f, env, now);
      r.queue == [f] && !r.hasIFrameInQueue && r.width == f.width && r.height == f.height
  {
  }

  /** Any resize while a codec exists releases it, whether or not a reference
      is already queued: only the input frame stays queued, the flag is clear,
      and a following frame that is neither frame 1 nor a key frame is
      discarded. */
  lemma ResizeWithCodecDropsReference(d: Decoder, f: Frame, g: Frame, env: Env, now: int, later: int)
    requires Valid(d) && !Discarded(d, f) && Resizes(d, f) && d.codec
    requires g.frameNum != 1 && !g.isKeyFrame
    ensures var r := QueueIn(d, f, env, now);
      && r.queue == [f] && !r.hasIFrameInQueue && !r.hasIFrameInCodec
      && QueueIn(r, g, env, later) == r
  {
  }

  /** With no reference frame available, a genuine key frame sets the flag
      and is enqueued behind whatever was queued. */
  lemma KeyFrameAdmittedWithoutSynthesis(d: Decoder, f: Frame, env: Env, now: int)
    requires Valid(d) && !d.hasIFrameInQueue && f.isKeyFrame
    requires DefaultKeyFrame(env, f.width).None?
    requires !(Resizes(d, f) && d.codec)
    ensures var r := QueueIn(d, f, env, now);
      r.hasIFrameInQueue && r.queue == Offer(d.queue, f)
  {
  }

  /** With no reference frame available, a first frame that is not a key
      frame leaves the flag clear but is still enqueued. */
  lemma FirstFrameQueuedWithoutReference(d: Decoder, f: Frame, env: Env, now: int)
    requires Valid(d) && !d.hasIFrameInQueue && f.frameNum == 1 && !f.isKeyFrame
    requires DefaultKeyFrame(env, f.width).None?
    ensures var r := QueueIn(d, f, env, now);
      !r.hasIFrameInQueue && |r.queue| > 0 && Last(r.queue) == f
  {
  }

  /** Once a reference is queued, frames are enqueued with no further
      synthesis and the flag stays set until a codec re-initialisation. */
  lemma ReferenceFlagPersists(d: Decoder, f: Frame, env: Env, now: int)
    requires Valid(d) && d.hasIFrameInQueue
    requires !(Resizes(d, f) && d.codec)
    ensures var r := QueueIn(d, f, env, now);
      r.hasIFrameInQueue && r.queue == Offer(d.queue, f)
  {
  }

  /** The picture size changes exactly when the frame resizes the decoder,
      and then the codec is (re)created for it. */
  lemma SizeAdoptedIffResizes(d: Decoder, f: Frame, env: Env, now: int)
    requires Valid(d) && !Discarded(d, f)
    ensures var r := QueueIn(d, f, env, now);
      && (Resizes(d, f) ==> r.width == f.width && r.height == f.height && r.codec)
      && (!Resizes(d, f) ==> r.width == d.width && r.height == d.height && r.codec == d.codec)
  {
  }

  /** The size test is a conjunction: a frame that changes only its width
      (1280x720 to 960x720, say) leaves the size, and the codec, alone. */
  lemma WidthOnlyChangeIgnored(d: Decoder, f: Frame, env: Env, now: int)
    requires Valid(d) && f.width != d.width && f.height == d.height
    ensures var r := QueueIn(d, f, env, now);
      r.width == d.width && r.height == d.height && r.codec == d.codec
  {
  }

  // ---------------------------------------------------------------------
  // Decoding one frame (decodeFrame)
  // ---------------------------------------------------------------------

  /** `CODEC_DEQUEUE_INPUT_QUEUE_RETRY`. */
  const INPUT_RETRIES: nat := 20

  /** An answer of `dequeueInputBuffer`: a free slot, none (-1), or an
      `IllegalStateException`. */
  datatype InputAnswer = Slot(index: nat) | NoSlot | IllegalState

  /** The codec's answer to attempt `i`; attempts beyond the given answers
      find no slot. */
  function AnswerAt(answers: seq<InputAnswer>, i: nat): InputAnswer
  {
    if i < |answers| then answers[i] else NoSlot
  }

  /** Outcome of input-buffer acquisition: attempts made, the slot found,
      and the decoder after any re-initialisations along the way. */
  datatype Acquired = Acquired(attempts: nat, slot: Option<nat>, decoder: Decoder)

  /** Whether some attempt in `[from, to)` met an `IllegalStateException`. */
  predicate FaultBetween(answers: seq<InputAnswer>, from: nat, to: nat)
  {
    exists j :: from <= j < to && AnswerAt(answers, j).IllegalState?
  }

  /** The retry loop from attempt `i` on: stop at the first slot or after
      20 attempts; an `IllegalStateException` re-initialises the codec. */
  function AcquireFrom(d: Decoder, answers: seq<InputAnswer>, i: nat): (r: Acquired)
    requires Valid(d) && d.codec && i <= INPUT_RETRIES
    ensures i <= r.attempts <= INPUT_RETRIES
    ensures r.slot.Some? ==> r.attempts > i && AnswerAt(answers, r.attempts - 1) == Slot(r.slot.value)
    ensures r.slot.None? ==> r.attempts == INPUT_RETRIES
    ensures forall j :: i <= j < r.attempts && (r.slot.None? || j < r.attempts - 1) ==> !AnswerAt(answers, j).Slot?
    ensures r.decoder == if FaultBetween(answers, i, r.attempts) then InitCodec(d) else d
    decreases INPUT_RETRIES - i
  {
    if i == INPUT_RETRIES then Acquired(i, None, d)
    else
      match AnswerAt(answers, i)
      case Slot(k) => Acquired(i + 1, Some(k), d)
      case NoSlot => AcquireFrom(d, answers, i + 1)
      case IllegalState => AcquireFrom(InitCodec(d), answers, i + 1)
  }

  /** Input-buffer acquisition from the first attempt. */
  function Acquire(d: Decoder, answers: seq<InputAnswer>): (r: Acquired)
    requires Valid(d) && d.codec
    ensures r.attempts <= INPUT_RETRIES
    ensures r.slot.Some? <==> exists j :: 0 <= j < INPUT_RETRIES && AnswerAt(answers, j).Slot?
  {
    AcquireFrom(d, answers, 0)
  }

  /** One attempt of the retry loop: a slot ends it, no slot moves on, and
      an `IllegalStateException` moves on with a re-initialised codec. */
  lemma AcquireFromStep(d: Decoder, answers: seq<InputAnswer>, i: nat)
    requires Valid(d) && d.codec && i < INPUT_RETRIES
    ensures AnswerAt(answers, i).Slot? ==>
      AcquireFrom(d, answers, i) == Acquired(i + 1, Some(AnswerAt(answers, i).index), d)
    ensures AnswerAt(answers, i).NoSlot? ==> AcquireFrom(d, answers, i) == AcquireFrom(d, answers, i + 1)
    ensures AnswerAt(answers, i).IllegalState? ==>
      AcquireFrom(d, answers, i) == AcquireFrom(InitCodec(d), answers, i + 1)
  {
  }

  /** The acquisition loop as the source writes it: a counted loop that
      stops at the first non-negative index. */
  method AcquireInputBuffer(d: Decoder, answers: seq<InputAnswer>)
    returns (attempts: nat, slot: Option<nat>, d': Decoder)
    requires Valid(d) && d.codec
    ensures attempts <= INPUT_RETRIES
    ensures Acquired(attempts, slot, d') == Acquire(d, answers)
  {
    ghost var target := Acquire(d, answers);
    attempts := 0;
    d' := d;
    var inIndex: int := -1;
    while attempts < INPUT_RETRIES && inIndex < 0
      invariant attempts <= INPUT_RETRIES
      invariant Valid(d') && d'.codec
      invariant inIndex < 0 ==> AcquireFrom(d', answers, attempts) == target
      invariant inIndex >= 0 ==> target == Acquired(attempts, Some(inIndex), d')
      decreases INPUT_RETRIES - attempts
    {
      AcquireFromStep(d', answers, attempts);
      match AnswerAt(answers, attempts) {
        case Slot(k) =>
          inIndex := k;
        case NoSlot =>
        case IllegalState =>
          d' := InitCodec(d');
      }
      attempts := attempts + 1;
    }
    slot := if inIndex >= 0 then Some(inIndex) else None;
  }

  /** An answer of `dequeueOutputBuffer`: a decoded buffer, the two info
      codes the decoder reacts to, "try again later", or an exception from
      the codec while feeding or draining. */
  datatype OutputAnswer = OutSlot(index: nat) | BuffersChanged | FormatChanged | TryAgainLater | Fault

  /** A decoded picture handed to the YUV listener, with the size it is
      reported at. */
  datatype Picture = Picture(width: int, height: int)

  /** Outcome of one `decodeFrame`: the decoder, the frame fed to the codec
      (with its feed time), the picture dispatched, and whether an exception
      escaped to the handler; `reset` says the watchdog asked for a codec
      reset (all pending messages replaced by one init message). */
  datatype Decoded = Decoded(decoder: Decoder, fed: Option<Frame>, picture: Option<Picture>, reset: bool, failed: bool)

  /** The part of `decodeFrame` after a frame was fed: ask for one output
      buffer and react to the answer. The YUV listener gets a picture only
      when no surface is configured; a buffers-changed answer goes through
      the watchdog, whose reset drops every pending message for one init
      message. */
  function Drain(d: Decoder, fed: Frame, output: OutputAnswer, now: int): (r: Decoded)
    requires Valid(d) && d.running
    ensures Valid(r.decoder) && r.fed == Some(fed) && r.decoder.hasIFrameInCodec
    ensures r.decoder.queue == d.queue && r.decoder.codec == d.codec
    ensures r.decoder.width == d.width && r.decoder.height == d.height
    ensures r.decoder.hasIFrameInQueue == d.hasIFrameInQueue
    ensures r.picture.Some? <==> output.OutSlot? && !d.surface && d.listener
    ensures r.picture.Some? ==> r.picture.value == Picture(d.width, d.height)
    ensures r.reset <==> output == BuffersChanged && Watchdog.OnBuffersChanged(d.bufferChanged, now).reset
    ensures r.reset ==> r.decoder.pending == [InitCodecMsg] && r.decoder.bufferChanged == []
    ensures !r.reset ==> r.decoder.pending == d.pending
    ensures output != BuffersChanged ==> r.decoder.bufferChanged == d.bufferChanged
    ensures output == BuffersChanged ==> r.decoder.bufferChanged == Watchdog.OnBuffersChanged(d.bufferChanged, now).times
    ensures r.failed <==> output == Fault
    ensures r.decoder.running && r.decoder.frameIndex == d.frameIndex
    ensures r.decoder == d.(hasIFrameInCodec := true, bufferChanged := r.decoder.bufferChanged, pending := r.decoder.pending)
  {
    var d' := d.(hasIFrameInCodec := true);
    match output
    case OutSlot(_) =>
      var picture := if !d.surface && d.listener then Some(Picture(d.width, d.height)) else None;
      Decoded(d', Some(fed), picture, false, false)
    case BuffersChanged =>
      var v := Watchdog.OnBuffersChanged(d.bufferChanged, now);
      if v.reset then
        Decoded(d'.(bufferChanged := [], pending := [InitCodecMsg]), Some(fed), None, true, false)
      else
        Decoded(d'.(bufferChanged := v.times), Some(fed), None, false, false)
    case FormatChanged => Decoded(d', Some(fed), None, false, false)
    case TryAgainLater => Decoded(d', Some(fed), None, false, false)
    case Fault => Decoded(d', Some(fed), None, false, true)
  }

  /** The part of `decodeFrame` once a codec exists: acquire an input slot
      and, when one is found, feed `frame` stamped with the feed time and
      drain one output answer. */
  function Feed(d: Decoder, frame: Frame, inputs: seq<InputAnswer>, output: OutputAnswer, now: int): (r: Decoded)
    requires Valid(d) && d.running && d.codec
    ensures Valid(r.decoder) && r.decoder.running && r.decoder.frameIndex == d.frameIndex
    ensures r.decoder.queue == d.queue || r.decoder.queue == []
    ensures r.fed.Some? <==> exists j :: 0 <= j < INPUT_RETRIES && AnswerAt(inputs, j).Slot?
    ensures r.fed.Some? ==> r.fed.value == frame.(fedIntoCodecTime := now) && r.decoder.hasIFrameInCodec
    ensures r.fed.None? ==> r.decoder.hasIFrameInCodec ==> d.hasIFrameInCodec
    ensures r.picture.Some? <==> r.fed.Some? && output.OutSlot? && !d.surface && d.listener
    ensures r.picture.Some? ==> r.picture.value == Picture(d.width, d.height)
    ensures r.reset <==> r.fed.Some? && output == BuffersChanged && Watchdog.OnBuffersChanged(d.bufferChanged, now).reset
    ensures r.reset ==> r.decoder.pending == [InitCodecMsg]
    ensures !r.reset ==> r.decoder.pending == d.pending
    ensures r.failed <==> r.fed.Some? && output == Fault
    ensures (forall j :: 0 <= j < INPUT_RETRIES ==> !AnswerAt(inputs, j).IllegalState?) ==>
      r.decoder.queue == d.queue && r.decoder.hasIFrameInQueue == d.hasIFrameInQueue
    ensures r.decoder.bufferChanged ==
      if r.fed.Some? && output == BuffersChanged then Watchdog.OnBuffersChanged(d.bufferChanged, now).times
      else d.bufferChanged
    ensures r.decoder.codec
    ensures r.decoder == d.(queue := r.decoder.queue, hasIFrameInQueue := r.decoder.hasIFrameInQueue,
                            hasIFrameInCodec := r.decoder.hasIFrameInCodec,
                            bufferChanged := r.decoder.bufferChanged, pending := r.decoder.pending)
  {
    var a := Acquire(d, inputs);
    assert a.decoder == d || a.decoder == InitCodec(d);
    if a.slot.None? then Decoded(a.decoder, None, None, false, false)
    else Drain(a.decoder, frame.(fedIntoCodecTime := now), output, now)
  }

  /** `decodeFrame`, which only the running data handler thread executes:
      poll the oldest frame, make sure a codec exists, acquire an input slot,
      feed the frame, and drain one output answer. */
  function DecodeFrame(d: Decoder, inputs: seq<InputAnswer>, output: OutputAnswer, now: int): (r: Decoded)
    requires Valid(d) && d.running
    ensures Valid(r.decoder)
    ensures d.queue == [] ==> r == Decoded(d, None, None, false, false)
    ensures d.queue != [] ==> r.decoder.queue == d.queue[1..] || r.decoder.queue == []
    ensures r.fed.Some? <==> d.queue != [] && Sized(d) && exists j :: 0 <= j < INPUT_RETRIES && AnswerAt(inputs, j).Slot?
    ensures r.fed.Some? ==> d.queue != [] && r.fed.value == d.queue[0].(fedIntoCodecTime := now)
    ensures r.fed.Some? ==> r.decoder.hasIFrameInCodec
    ensures r.fed.None? ==> r.decoder.hasIFrameInCodec ==> d.hasIFrameInCodec
    ensures r.picture.Some? ==> output.OutSlot? && r.fed.Some? && !d.surface && d.listener
    ensures r.picture.Some? ==> r.picture.value == Picture(d.width, d.height)
    ensures r.reset ==> output == BuffersChanged && r.fed.Some? && r.decoder.pending == [InitCodecMsg]
    ensures !r.reset ==> r.decoder.pending == d.pending
    ensures r.failed ==> (output == Fault && r.fed.Some?) || (r.fed.None? && !Sized(d))
    ensures r.failed <==> d.queue != [] && (!Sized(d) || (r.fed.Some? && output == Fault))
    ensures d.queue != [] && (forall j :: 0 <= j < INPUT_RETRIES ==> !AnswerAt(inputs, j).IllegalState?) ==>
      r.decoder.queue == d.queue[1..] && r.decoder.hasIFrameInQueue == d.hasIFrameInQueue
    ensures r.decoder.bufferChanged ==
      if r.fed.Some? && output == BuffersChanged then Watchdog.OnBuffersChanged(d.bufferChanged, now).times
      else d.bufferChanged
    ensures r.decoder.running && r.decoder.frameIndex == d.frameIndex
    ensures d.queue != [] ==> (r.decoder.codec <==> Sized(d))
    ensures r.decoder == d.(queue := r.decoder.queue, hasIFrameInQueue := r.decoder.hasIFrameInQueue,
                            hasIFrameInCodec := r.decoder.hasIFrameInCodec, codec := r.decoder.codec,
                            bufferChanged := r.decoder.bufferChanged, pending := r.decoder.pending)
  {
    if d.queue == [] then Decoded(d, None, None, false, false)
    else
      var frame := d.queue[0];
      var d1 := d.(queue := d.queue[1..]);
      var d2 := if d1.codec then d1 else InitCodec(d1);
      if !d2.codec then
        // `codec` is still null: the first codec call throws.
        Decoded(d2, None, None, false, true)
      else
        Feed(d2, frame, inputs, output, now)
  }

  /** Input acquisition that never finds a slot within 20 attempts drops the
      frame without feeding it, whatever the output answer would have been. */
  lemma NoSlotDropsFrame(d: Decoder, inputs: seq<InputAnswer>, output: OutputAnswer, now: int)
    requires Valid(d) && d.running && d.queue != [] && Sized(d)
    requires forall j :: 0 <= j < INPUT_RETRIES ==> !AnswerAt(inputs, j).Slot?
    ensures DecodeFrame(d, inputs, output, now).fed.None?
  {
  }

  /** A buffers-changed answer asks for a reset exactly on the watchdog's
      window condition. */
  lemma WatchdogResetOnlyOnWindow(d: Decoder, inputs: seq<InputAnswer>, now: int)
    requires Valid(d) && d.running
    ensures var r := DecodeFrame(d, inputs, BuffersChanged, now);
      r.reset <==> r.fed.Some? && Watchdog.OnBuffersChanged(d.bufferChanged, now).reset
  {
    var r := DecodeFrame(d, inputs, BuffersChanged, now);
    if d.queue != [] {
      var d1 := d.(queue := d.queue[1..]);
      var d2 := if d1.codec then d1 else InitCodec(d1);
      if d2.codec {
        var a := Acquire(d2, inputs);
        assert a.decoder.bufferChanged == d.bufferChanged;
      }
    }
  }
}

=== FILE: watchdog.dfy ===
/** The output-buffers-changed watchdog: a sliding window of event times
    that asks for a decoder reset when ten events fall within one second. */
module Watchdog {
  import opened Basics

  /** Events in the window that trigger a reset. */
  const WINDOW_EVENTS: nat := 10
  /** Width of the window, in milliseconds. */
  const WINDOW_MS: int := 1000
  /** Times retained between events: one fewer than the window. */
  const RETAINED: nat := WINDOW_EVENTS - 1

  /** The retained times after one event, and whether a reset was asked for. */
  datatype Verdict = Verdict(times: seq<int>, reset: bool)

  /** One `INFO_OUTPUT_BUFFERS_CHANGED` event at time `now`: append it, and
      once the list reaches ten entries drop the head; if the head is less
      than a second old, clear the list and request a reset. */
  function OnBuffersChanged(times: seq<int>, now: int): (v: Verdict)
    ensures v.reset <==> |times| >= RETAINED && now - times[0] < WINDOW_MS
    ensures v.reset ==> v.times == []
    ensures !v.reset && |times| <= RETAINED ==> v.times == Newest(times + [now], RETAINED)
    ensures |times| <= RETAINED ==> |v.times| <= RETAINED
  {
    var appended := times + [now];
    if |appended| >= WINDOW_EVENTS then
      var head := appended[0];
      if now - head < WINDOW_MS then Verdict([], true) else Verdict(appended[1..], false)
    else
      Verdict(appended, false)
  }

  /** The retained times and the per-event reset verdicts after a run of events. */
  datatype Trace = Trace(times: seq<int>, resets: seq<bool>)

  /** The retained times and per-event verdicts after a run of events. */
  function Replay(times: seq<int>, events: seq<int>): (t: Trace)
    ensures |t.resets| == |events|
    decreases |events|
  {
    if |events| == 0 then Trace(times, [])
    else
      var v := OnBuffersChanged(times, events[0]);
      var rest := Replay(v.times, events[1..]);
      Trace(rest.times, [v.reset] + rest.resets)
  }

  /** Replaying two runs back to back is replaying their concatenation. */
  lemma {:induction false} ReplayAppend(times: seq<int>, a: seq<int>, b: seq<int>)
    ensures var ta := Replay(times, a); var tb := Replay(ta.times, b);
      Replay(times, a + b) == Trace(tb.times, ta.resets + tb.resets)
    decreases |a|
  {
    if |a| == 0 {
      assert a + b == b;
    } else {
      var v := OnBuffersChanged(times, a[0]);
      assert (a + b)[0] == a[0];
      assert (a + b)[1..] == a[1..] + b;
      ReplayAppend(v.times, a[1..], b);
      var ta' := Replay(v.times, a[1..]);
      var tb := Replay(ta'.times, b);
      assert [v.reset] + (ta'.resets + tb.resets) == ([v.reset] + ta'.resets) + tb.resets;
    }
  }

  /** Whether no event of the run triggers a reset. */
  predicate Quiet(times: seq<int>, events: seq<int>)
    decreases |events|
  {
    |events| == 0 ||
      var v := OnBuffersChanged(times, events[0]);
      !v.reset && Quiet(v.times, events[1..])
  }

  /** A run is quiet exactly when none of its reset verdicts is set. */
  lemma {:induction false} QuietIffNoReset(times: seq<int>, events: seq<int>)
    ensures Quiet(times, events) <==> forall i :: 0 <= i < |events| ==> !Replay(times, events).resets[i]
    decreases |events|
  {
    if |events| > 0 {
      var v := OnBuffersChanged(times, events[0]);
      var tail := events[1..];
      QuietIffNoReset(v.times, tail);
      assert Replay(times, events).resets == [v.reset] + Replay(v.times, tail).resets;
      if Quiet(times, events) {
        forall i | 0 <= i < |events|
          ensures !Replay(times, events).resets[i]
        {
          if i > 0 {
            assert !Replay(v.times, tail).resets[i - 1];
          }
        }
      }
      if forall i :: 0 <= i < |events| ==> !Replay(times, events).resets[i] {
        assert !Replay(times, events).resets[0];
        forall j | 0 <= j < |tail|
          ensures !Replay(v.times, tail).resets[j]
        {
          assert !Replay(times, events).resets[j + 1];
        }
      }
    }
  }

  /** While no reset fires, the list holds exactly the newest nine event times. */
  lemma {:induction false} QuietReplayKeepsNewest(times: seq<int>, events: seq<int>)
    requires |times| <= RETAINED && Quiet(times, events)
    ensures Replay(times, events).times == Newest(times + events, RETAINED)
    decreases |events|
  {
    if |events| == 0 {
      assert times + events == times;
    } else {
      var v := OnBuffersChanged(times, events[0]);
      calc {
        Replay(times, events).times;
        Replay(v.times, events[1..]).times;
        { QuietReplayKeepsNewest(v.times, events[1..]); }
        Newest(v.times + events[1..], RETAINED);
        { NewestPush(times, events, RETAINED); }
        Newest(times + events, RETAINED);
      }
    }
  }

  /** The sliding-window rule: starting from an empty list, and with no reset
      among the first `k` events, event `k` resets exactly when it is at
      least the tenth and lies less than a second after the event nine
      places before it. */
  lemma ResetIffTenWithinWindow(events: seq<int>, k: nat)
    requires k < |events| && Quiet([], events[..k])
    ensures Replay([], events).resets[k] <==> k >= RETAINED && events[k] - events[k - RETAINED] < WINDOW_MS
  {
    var pre := events[..k];
    var post := events[k..];
    assert events == pre + post;
    ReplayAppend([], pre, post);
    var tp := Replay([], pre);
    var tq := Replay(tp.times, post);
    assert Replay([], events).resets[k] == tq.resets[0];
    assert post[0] == events[k];
    // The quiet prefix leaves exactly its newest nine times in the list.
    QuietReplayKeepsNewest([], pre);
    assert [] + pre == pre;
    assert tp.times == Newest(pre, RETAINED);
    if k >= RETAINED {
      assert tp.times[0] == events[k - RETAINED];
    }
  }

  /** Fewer than ten events from a list that has room for them never reset. */
  lemma {:induction false} NoResetBeforeTenthEvent(times: seq<int>, events: seq<int>)
    requires |times| + |events| <= RETAINED
    ensures Quiet(times, events)
    decreases |events|
  {
    if |events| > 0 {
      var v := OnBuffersChanged(times, events[0]);
      assert v.times == times + [events[0]];
      NoResetBeforeTenthEvent(v.times, events[1..]);
    }
  }
}
